=== FILE: README.md ===
# PotionFingers ring and recipe logic in Dafny

PotionFingers is a Minecraft Forge add-on. It adds a wearable ring (a Baubles
"ring" accessory) that grants its bound status effect to the wearer. Worn rings
of the same effect stack up to amplifier 1. This project models two pieces of
pure decision logic from it and proves properties of them:

- **The ring effect resolver** (`ItemRing.java`). It counts the worn rings that
  share the subject ring's effect, derives the amplifier level, and decides
  whether to remove a stale effect and whether to apply a fresh one. It also
  decides when a worn ring refreshes and how its durability counter runs down.
  Its small helpers are modelled too: the effect tag round trip, durability and
  damage arithmetic, and the translation key.
- **The shaped-recipe builder** (`RecipeHandler.java`). It reads the variadic
  pattern/key argument list, lays the pattern out as a row-major ingredient
  grid, picks a fresh recipe name, and records the recipe.

Everything is written as immutable datatypes and pure functions. Host calls
become instruction values:
- `EffectUpdate(remove, apply)` for `removePotionEffect` / `addPotionEffect`;
- `KeepDurability | StoreDurability(v) | Break` for the tag write or the
  break-and-destroy;
- `Idle | Refresh(...)` for one worn tick.

Host state is passed in as plain inputs:
- the wearer: player or not, remote world or not, age in ticks, active-effect
  table;
- the ring slots, as a sequence of stacks;
- the potion registry, as a map from effect id to effect;
- the recipe registry (used names and recipes), as a value returned updated.

Every exception the recipe code throws is an `Err` value.

Files:
- `wrappers.dfy` (`Wrappers`): `Option`, `Result`.
- `rings.dfy` (`Rings`): items, stacks, tags, potions, and the tag, damage and
  key helpers.
- `resolver.dfy` (`Resolver`): the resolver, worn tick and durability step.
- `recipes.dfy` (`Recipes`): argument reading, grid layout, naming and the
  registry.

Notes on how the code was read:
- The Java loop in `updatePotionStatus` (level starts at -1 and goes up once per
  matching slot) is modelled literally as `RawLevel`. `Level` is then proved
  equal to the reference count `min(count - 1, 1)`. The count is the number of
  occurrences of the effect in the multiset of slot effects.
- The stale-effect test is written with the same guard structure as the Java
  code, including the redundant outer `currentLevel <= level ||
  currentEffect != null`. The active effect is dereferenced after comparing
  levels. Dafny checks that this dereference never meets an absent effect,
  because the level is never below -1.
- The damage overrides test for a tag through the host's `hasTagCompound`, which reports no tag for an empty stack. The model follows that (`Rings.HasTag`), so a broken ring that keeps its tag falls back to the metadata. The host's `ItemStack` is not part of this model; this reading of it is an assumption.
- The Java code tests `stack == baubleRing` by reference. The model uses the
  index of the slot that holds the subject stack (`subject: Option<nat>`).
- `prepareMaterials` does not check rows against the first row's width. A row
  longer than the first runs on into the next row's cells, or past the end of
  the grid, where the list access throws. The model keeps this behaviour
  (`RaggedRows`). The layout property is proved for patterns whose rows fit.
- `unusedLocForOutput` calls `requireNonNull` on the output's registry name,
  but `outputGroup` has already done so. The model reports a missing name once,
  in `OutputGroup`. `UnusedLocForOutput` then receives the name itself.
- The durability counter runs down on every refresh of a worn ring that has
  one, whether or not an effect was applied: `onWornTick` calls
  `updateDurabilityStatus` in the same branch as the refresh. When the ring
  sits in one of the slots it is evaluated against, every refresh does apply
  its effect (`WornRingApplies`).

## Model

| member | source | states |
|---|---|---|
| `Rings.GetPotion` | src/main/java/vazkii/potionfingers/ItemRing.java:142-154 | An empty stack, a blank or missing effect id, or an id the registry does not know yields no effect; otherwise the registry's effect for the id. |
| `Rings.GetDurability` | src/main/java/vazkii/potionfingers/ItemRing.java:156-167 | An empty stack or a stack without a durability tag reads as -1; otherwise the stored counter. |
| `Rings.RingForPotion` | src/main/java/vazkii/potionfingers/ItemRing.java:121-132 | A potion without a registry name gives the empty stack; otherwise one ring of metadata 1 whose effect tag is the printed registry id, with no durability tag. |
| `Rings.RingPotionRoundTrip` | src/main/java/vazkii/potionfingers/ItemRing.java:121-154 | Reading the effect back from a ring built for a registered potion gives that potion; a ring for an unnamed potion reads as none. |
| `Rings.RingHasNoDurability` | src/main/java/vazkii/potionfingers/ItemRing.java:128-166 | A freshly built ring reads durability -1. |
| `Rings.MaxDamage` | src/main/java/vazkii/potionfingers/ItemRing.java:267-274 | For a non-empty stack, the maximum-durability tag, when present, is the maximum damage; otherwise, and always for an empty stack, the item's own maximum, which is 0 for the ring. |
| `Rings.Damage` | src/main/java/vazkii/potionfingers/ItemRing.java:276-283 | For a non-empty stack with a durability tag, damage and durability add up to the maximum damage modulo 2^32; without one, or for an empty stack, damage is the metadata. |
| `Rings.IsDamaged` | src/main/java/vazkii/potionfingers/ItemRing.java:285-292 | With a durability tag, a non-empty ring is damaged iff its durability reads >= 0; without one, or for an empty stack, iff its metadata is > 0. |
| `Rings.DamageComplementsDurability` | src/main/java/vazkii/potionfingers/ItemRing.java:267-292 | With a durability tag, damage plus durability equals maximum damage modulo 2^32 (exactly when the difference fits an `int`), and the ring is damaged iff durability >= 0. |
| `Rings.DamageWithoutDurability` | src/main/java/vazkii/potionfingers/ItemRing.java:276-292 | Without a durability tag, or for an empty stack (such as a broken ring that keeps its tag), damage is the metadata, damaged means metadata > 0, and durability reads -1; an empty stack's maximum damage is 0. |
| `Rings.TranslationKey` | src/main/java/vazkii/potionfingers/ItemRing.java:70-79 | The key always has the form `item.<name>.name`. |
| `Rings.TranslationKeyVariants` | src/main/java/vazkii/potionfingers/ItemRing.java:47-79 | Metadata 0 and 1 give the disabled and enabled variant keys, any larger value the plain `item.ring.name`; a ring built for a named potion shows the enabled key. |
| `Resolver.RawLevel` | src/main/java/vazkii/potionfingers/ItemRing.java:215-222 | After the loop over the first n slots, level + 1 equals the number of those slots showing the effect (the subject's slot shows none while unequipping). |
| `Resolver.Level` | src/main/java/vazkii/potionfingers/ItemRing.java:215-225 | The level is in {-1, 0, 1} and equals min(count - 1, 1), where count is the number of slots showing the effect. |
| `Resolver.UpdatePotionStatus` | src/main/java/vazkii/potionfingers/ItemRing.java:208-236 | No effect, a remote world or a non-player wearer gives no instruction. Otherwise an effect is applied iff count >= 1, with duration 199, amplifier min(count - 1, 1), ambient and no particles. The effect is removed iff unequipping, it is active, its amplifier exceeds the new level and its remaining duration is <= 199. |
| `Resolver.OnEquipped` | src/main/java/vazkii/potionfingers/ItemRing.java:183-186 | Equipping never removes; a bound ring found in its own slot always applies its effect for a player on the server. |
| `Resolver.OnUnequipped` | src/main/java/vazkii/potionfingers/ItemRing.java:188-191 | After unequipping, the effect is reapplied iff (for a player on the server, with a bound ring) some other slot still holds a ring with the same effect; with no such slot it is never reapplied. |
| `Resolver.UpdateDurabilityStatus` | src/main/java/vazkii/potionfingers/ItemRing.java:238-251 | A negative counter, remote world or non-player changes nothing; durability d >= 1 stores d - 1; d = 0 breaks the ring. |
| `Resolver.ApplyDurability` | src/main/java/vazkii/potionfingers/ItemRing.java:243-250 | Storing writes the new counter into the tag and keeps item, count, metadata, effect and maximum; breaking empties the stack by its count alone; keeping changes nothing. |
| `Resolver.DurabilityStep` | src/main/java/vazkii/potionfingers/ItemRing.java:238-251 | After one use, a ring with d >= 1 reads d - 1 and keeps its effect; a ring with 0 becomes an empty stack with no effect and durability -1. |
| `Resolver.OnWornTick` | src/main/java/vazkii/potionfingers/ItemRing.java:193-206 | A worn ring refreshes iff it has an effect and the wearer's age is a multiple of 99 or the effect is not active; only a refresh touches durability, and only when the counter is present and non-negative. |
| `Resolver.KindsPermutation` | src/main/java/vazkii/potionfingers/ItemRing.java:216-222 | Rearranging the slots rearranges the effects they show in the same way (equal multisets). |
| `Resolver.LevelIgnoresSlotOrder` | src/main/java/vazkii/potionfingers/ItemRing.java:215-225 | When not unequipping, two slot sequences holding the same rings give the same level, whatever their order. |
| `Resolver.UnequipIgnoresOwnSlot` | src/main/java/vazkii/potionfingers/ItemRing.java:216-221 | Unequipping the ring in slot i resolves exactly as equipping with slot i emptied. |
| `Resolver.OwnSlotCounts` | src/main/java/vazkii/potionfingers/ItemRing.java:216-225 | When not unequipping, the subject's own slot counts, so the level is at least 0; unequipping withdraws exactly that one count. |
| `Resolver.WornRingApplies` | src/main/java/vazkii/potionfingers/ItemRing.java:193-236 | Every refresh of a bound ring worn by a player on the server applies that ring's effect. |
| `Resolver.UnequipOneOfTwo` | src/main/java/vazkii/potionfingers/ItemRing.java:188-236 | With exactly two worn rings of one effect (the subject included), any number of slots, and amplifier 1 active for <= 199 ticks, unequipping one removes the effect and reapplies it at amplifier 0. |
| `Recipes.AsIngredient` | src/main/java/vazkii/potionfingers/RecipeHandler.java:107-122 | Exactly strings (as ore names) and ingredient-like objects convert; anything else is an error. |
| `Recipes.ParseFrom` | src/main/java/vazkii/potionfingers/RecipeHandler.java:50-67 | An accepted list's rows are the rows read so far followed by the list's top-level strings (each argument after a symbol skipped); every new row has at most 3 symbols, and adding rows never goes past 3. |
| `Recipes.ParsePattern` | src/main/java/vazkii/potionfingers/RecipeHandler.java:44-67 | An accepted argument list's rows are exactly its top-level strings, at most 3 of them, each of at most 3 symbols. |
| `Recipes.PatternLimitsEnforced` | src/main/java/vazkii/potionfingers/RecipeHandler.java:53-62 | Whatever key bindings surround them, a pattern string longer than 3 symbols or a fourth pattern string makes the list fail. |
| `Recipes.RowsOnlyFrom` | src/main/java/vazkii/potionfingers/RecipeHandler.java:53-62 | Rows only, on top of earlier rows: accepted iff the total stays within 3 rows and none is longer than 3; the pattern is the rows in order. |
| `Recipes.RowsOnly` | src/main/java/vazkii/potionfingers/RecipeHandler.java:53-62 | A list of rows is accepted iff at most 3 rows of at most 3 symbols, and then it is the pattern; a fourth or over-long row is rejected. |
| `Recipes.UnknownRejected` | src/main/java/vazkii/potionfingers/RecipeHandler.java:50-67 | An argument of the unsupported kind `Unknown` (neither string, character nor ingredient-like) anywhere in the list makes it fail. |
| `Recipes.IngrWhereRowExpected` | src/main/java/vazkii/potionfingers/RecipeHandler.java:65-66 | An ingredient, item or item stack where a row or symbol is expected fails as an unexpected argument. |
| `Recipes.RowStep` | src/main/java/vazkii/potionfingers/RecipeHandler.java:53-62 | A leading string longer than 3 fails with its length; with 3 rows already read it fails as too many rows; otherwise it is appended as a row and reading continues with the rest. |
| `Recipes.RowsThenBindings` | src/main/java/vazkii/potionfingers/RecipeHandler.java:50-67 | Worked example of the usual shape, rows then bindings: `"ab", " a", 'a', x, 'b', "gem"` gives rows `ab`, ` a` and key `a` to x, `b` to ore `gem`. |
| `Recipes.SymbolBindsNext` | src/main/java/vazkii/potionfingers/RecipeHandler.java:63-64 | A character binds itself to the ingredient of the next argument (a string there is an ore name, not a row); an unconvertible next argument or none at all is an error. |
| `Recipes.IdxIsRowMajor` | src/main/java/vazkii/potionfingers/RecipeHandler.java:92 | The grid position of column c of row r is c + width * r. |
| `Recipes.FillRow` | src/main/java/vazkii/potionfingers/RecipeHandler.java:88-93 | Writing one row keeps the grid's length. |
| `Recipes.FillRows` | src/main/java/vazkii/potionfingers/RecipeHandler.java:87-93 | Writing the rows keeps the grid's length. |
| `Recipes.PrepareMaterials` | src/main/java/vazkii/potionfingers/RecipeHandler.java:84-96 | A successful grid has exactly width * height cells. |
| `Recipes.FillRowLayout` | src/main/java/vazkii/potionfingers/RecipeHandler.java:88-93 | A bound row that fits writes each symbol's ingredient at its position and leaves every other cell alone. |
| `Recipes.FillRowsLayout` | src/main/java/vazkii/potionfingers/RecipeHandler.java:87-93 | Fitting, bound rows place each symbol at c + width * r and leave cells past each row's end alone. |
| `Recipes.PrepareMaterialsLayout` | src/main/java/vazkii/potionfingers/RecipeHandler.java:84-96 | For rows no wider than the width and all symbols bound: width * height cells, the symbol at row r, column c lands at c + width * r, and cells no row reaches stay empty. |
| `Recipes.FillRowUnbound` | src/main/java/vazkii/potionfingers/RecipeHandler.java:89-92 | A symbol without an ingredient in the rest of a row makes writing it fail. |
| `Recipes.FillRowsUnbound` | src/main/java/vazkii/potionfingers/RecipeHandler.java:87-93 | A symbol without an ingredient in any remaining row makes the layout fail. |
| `Recipes.PrepareMaterialsNeedsBindings` | src/main/java/vazkii/potionfingers/RecipeHandler.java:84-96 | For fitting rows, the grid is built iff every symbol has an ingredient. |
| `Recipes.RaggedRows` | src/main/java/vazkii/potionfingers/RecipeHandler.java:84-96 | Worked example: in a grid two wide, the middle row `cde` of `["ab","cde",""]` spills its third symbol into the first cell of the next row. |
| `Recipes.LastRowOverruns` | src/main/java/vazkii/potionfingers/RecipeHandler.java:84-96 | For any bound pattern whose earlier rows fit but whose last row is wider than the grid, the layout fails writing index width * height. |
| `Recipes.DecimalRoundTrip` | src/main/java/vazkii/potionfingers/RecipeHandler.java:133 | Reading back the decimal digits of the name suffix gives the index. |
| `Recipes.RecipeNameInjective` | src/main/java/vazkii/potionfingers/RecipeHandler.java:127-133 | Distinct indices give distinct candidate names (`base`, `base_1`, `base_2`, ...). |
| `Recipes.FreshIndex` | src/main/java/vazkii/potionfingers/RecipeHandler.java:128-134 | The search stops at a candidate not in the used set; every candidate it skipped is in the set. It terminates because each skipped name leaves the finite set. |
| `Recipes.UnusedLocForOutput` | src/main/java/vazkii/potionfingers/RecipeHandler.java:124-137 | The name is not used yet; it is the base name if that is free, otherwise `base_k` for the smallest free k >= 1. |
| `Recipes.FirstNamesForOutput` | src/main/java/vazkii/potionfingers/RecipeHandler.java:124-137 | The first recipe for an output takes the base name, the second `base_1`. |
| `Recipes.OutputGroup` | src/main/java/vazkii/potionfingers/RecipeHandler.java:139-142 | The group is the output item's printed registry name; an item without one is an error. |
| `Recipes.AddRecipe` | src/main/java/vazkii/potionfingers/RecipeHandler.java:98-105 | Fails iff the output is empty; otherwise appends the name and the named recipe. |
| `Recipes.BuildShaped` | src/main/java/vazkii/potionfingers/RecipeHandler.java:44-80 | A built recipe has 1 to 3 rows, width at most 3, width * height ingredients, the given output, and an output item with a registry name, whose printed form is the group. |
| `Recipes.AddShapedRecipe` | src/main/java/vazkii/potionfingers/RecipeHandler.java:44-80 | Succeeds iff the recipe builds and the output is non-empty; then exactly the built recipe is appended, filed under the name `UnusedLocForOutput` picks (not used before), and nothing earlier changes. |
| `Recipes.ShapedLayout` | src/main/java/vazkii/potionfingers/RecipeHandler.java:69-74 | Width is the first row's length and height the row count; each cell holds its symbol's ingredient, except that a space is always empty, whatever the caller bound it to, and cells past a short row are empty. |
| `Recipes.AddShapedRecipeKeepsValid` | src/main/java/vazkii/potionfingers/RecipeHandler.java:98-137 | Registering through the builder keeps the used names pairwise distinct, one per recipe, and each recipe filed under its own name. |

## Left out

- Forge and Baubles plumbing is not modelled: event subscribers (`onRegister`, `registerModel`, `registerItems`, `onItemColorRegister`, `RecipeHandler.register`), `getNamespace` (the namespace is a parameter), `getSubItems`, `getItemStackDisplayName` (I18n, client side), `hasEffect`, `getModel`, `getBaubleType`. All of these are host registries or side effects.
- `getDurabilityForDisplay` (floating-point division) and `getItemColor` (client colour callback) are presentation only.
- Sound playback and `stack.setCount(0)` become the `Break` instruction. `ApplyDurability` shows the resulting stack.
- What the wearer's effect table does with the instructions is host behaviour and not modelled. This includes how `addPotionEffect` merges with an existing effect.
- Side effects of `getOrCreateNBTTag` are not modelled: reading a stack without a tag creates an empty one, which changes `showDurabilityBar`. This is a host storage detail.
- `ResourceLocation` parsing and lower-casing are host code. The potion registry is keyed by the id string as the ring's tag stores it, and names are assumed already in canonical lower case.
- `Potion`, `Ingredient`, `OreIngredient`, `ShapedRecipes` and `NonNullList` are foreign types. The `Potion` value is the effect's identity: two effects are the same exactly when their values are equal. Ingredients are opaque apart from `Empty` and ore names. Only the parts of `NonNullList` the code relies on are kept: it refuses null (an unbound symbol) and an out-of-range index.
- The argument conversion in `asIngredient` is reduced to which argument kinds convert. Item, item-stack and ingredient objects are one opaque `Ingr` case.
- The emptiness test of a stack is reduced to "item is air or count <= 0". The host's metadata range check is left out: metadata is a non-negative `int`, as the host keeps it.
- Strings are sequences of Unicode characters, while Java's `length()` and `substring(j, j + 1)` count UTF-16 code units. Pattern rows and key symbols are assumed to be characters of the Basic Multilingual Plane (one UTF-16 unit each). A row such as two U+1D538 characters is 4 units long in Java and rejected there, but accepted here as 2 symbols.
- The ring item's own maximum damage is the host default 0 (`Item.maxDamage` is never set for it). The mod id is taken as `potionfingers`; PotionFingers.java is not part of this model, and no proof depends on the value beyond it differing from `minecraft`.
- The static recipe lists are an explicit `Registry` value. The recipe index in `unusedLocForOutput` is a Java `int`. It is modelled unbounded, because the search stops at an index no larger than the number of used names.
- The wrapping of exceptions into `RuntimeException` inside `addShapedRecipe` is not modelled. Every failure is one `RecipeError` value.

=== FILE: recipes.dfy ===
/** The shaped-recipe builder (RecipeHandler.java): reading the variadic
    pattern/key argument list, laying the pattern out as a row-major
    ingredient grid, choosing a recipe name no earlier recipe uses, and the
    registry of names and recipes. Every exception the Java code throws is an
    `Err`; the registry is an explicit value instead of static lists. */
module Recipes {
  import opened Wrappers
  import opened Rings

  /** An ingredient, opaque apart from the empty ingredient and the ore
      dictionary entries a plain string turns into. */
  datatype Ingredient = Empty | Ore(name: string) | Of(id: nat)

  /** One argument of the variadic list: a pattern row, a key symbol, an
      object the host can turn into an ingredient (an ingredient, item or item
      stack), or an object of any other type. */
  datatype Arg = Str(s: string) | Chr(c: char) | Ingr(ingredient: Ingredient) | Unknown

  datatype RecipeError =
    | RowTooLong(length: nat)
    | TooManyRows
    | UnexpectedArgument
    | MissingIngredient
    | NotAnIngredient
    | NoPattern
    | UnknownSymbol(symbol: char)
    | IndexOutOfBounds(index: nat)
    | NoRegistryName
    | EmptyOutput

  /** The pattern rows and symbol bindings read from the argument list. */
  datatype Parsed = Parsed(rows: seq<string>, key: map<char, Ingredient>)

  datatype ShapedRecipe = ShapedRecipe(group: string, width: nat, height: nat, ingredients: seq<Ingredient>, output: Stack)

  datatype NamedRecipe = NamedRecipe(name: Loc, recipe: ShapedRecipe)

  /** Every name handed out so far, and the recipes in the order added. */
  datatype Registry = Registry(usedNames: seq<Loc>, recipes: seq<NamedRecipe>)

  const MAX_ROWS: nat := 3
  const MAX_ROW_LENGTH: nat := 3

  // ---------------------------------------------------------------------------
  // Reading the argument list
  // ---------------------------------------------------------------------------

  /** The host's conversion of the argument after a key symbol; strings name
      ore dictionary entries. */
  function AsIngredient(a: Arg): (r: Result<Ingredient, RecipeError>)
    ensures r.Ok? <==> a.Str? || a.Ingr?
    ensures a.Str? ==> r == Ok(Ore(a.s))
    ensures a.Ingr? ==> r == Ok(a.ingredient)
  {
    match a
    case Ingr(i) => Ok(i)
    case Str(s) => Ok(Ore(s))
    case _ => Err(NotAnIngredient)
  }

  /** The pattern rows of an argument list, read independently of any
      checks: every top-level string, skipping the argument that follows each
      key symbol. */
  function TopRows(inputs: seq<Arg>): seq<string>
    decreases |inputs|
  {
    if |inputs| == 0 then []
    else
      match inputs[0]
      case Str(s) => [s] + TopRows(inputs[1..])
      case Chr(_) => if |inputs| < 2 then [] else TopRows(inputs[2..])
      case _ => TopRows(inputs[1..])
  }

  /** Reads `inputs` on top of the rows and key read so far. A string is a
      row (at most three characters, at most three rows); a character binds
      itself to the ingredient made from the next argument; anything else is
      rejected. */
  function ParseFrom(inputs: seq<Arg>, rows: seq<string>, key: map<char, Ingredient>): (r: Result<Parsed, RecipeError>)
    ensures r.Ok? ==> r.value.rows == rows + TopRows(inputs)
    ensures r.Ok? ==> forall k :: |rows| <= k < |r.value.rows| ==> |r.value.rows[k]| <= MAX_ROW_LENGTH
    ensures r.Ok? && |r.value.rows| > |rows| ==> |r.value.rows| <= MAX_ROWS
    decreases |inputs|
  {
    if |inputs| == 0 then Ok(Parsed(rows, key))
    else
      match inputs[0]
      case Str(s) =>
        if |s| > MAX_ROW_LENGTH then Err(RowTooLong(|s|))
        else if |rows| <= MAX_ROWS - 1 then ParseFrom(inputs[1..], rows + [s], key)
        else Err(TooManyRows)
      case Chr(c) =>
        if |inputs| < 2 then Err(MissingIngredient)
        else
          var ingredient :- AsIngredient(inputs[1]);
          ParseFrom(inputs[2..], rows, key[c := ingredient])
      case _ => Err(UnexpectedArgument)
  }

  /** Reads a whole argument list; an accepted pattern has at most three rows
      of at most three symbols. */
  function ParsePattern(inputs: seq<Arg>): (r: Result<Parsed, RecipeError>)
    ensures r.Ok? ==> r.value.rows == TopRows(inputs)
    ensures r.Ok? ==> |r.value.rows| <= MAX_ROWS
    ensures r.Ok? ==> forall k :: 0 <= k < |r.value.rows| ==> |r.value.rows[k]| <= MAX_ROW_LENGTH
  {
    ParseFrom(inputs, [], map[])
  }

  /** Whatever key bindings surround them, a pattern string longer than three
      symbols or a fourth pattern string makes the whole list fail. */
  lemma PatternLimitsEnforced(inputs: seq<Arg>)
    requires || |TopRows(inputs)| > MAX_ROWS
             || exists k :: 0 <= k < |TopRows(inputs)| && |TopRows(inputs)[k]| > MAX_ROW_LENGTH
    ensures ParsePattern(inputs).Err?
  {
  }

  predicate AllRows(inputs: seq<Arg>) {
    forall i :: 0 <= i < |inputs| ==> inputs[i].Str?
  }

  function RowStrings(inputs: seq<Arg>): seq<string>
    requires AllRows(inputs)
  {
    seq(|inputs|, i requires 0 <= i < |inputs| => inputs[i].s)
  }

  /** A list made only of rows is accepted exactly when it has at most three
      rows, none longer than three, and then those are the pattern. */
  lemma {:induction false} RowsOnlyFrom(inputs: seq<Arg>, rows: seq<string>, key: map<char, Ingredient>)
    requires AllRows(inputs) && |rows| <= MAX_ROWS
    ensures ParseFrom(inputs, rows, key).Ok? <==>
              |rows| + |inputs| <= MAX_ROWS &&
              forall i :: 0 <= i < |inputs| ==> |inputs[i].s| <= MAX_ROW_LENGTH
    ensures ParseFrom(inputs, rows, key).Ok? ==>
              ParseFrom(inputs, rows, key).value == Parsed(rows + RowStrings(inputs), key)
    decreases |inputs|
  {
    if |inputs| > 0 {
      var s := inputs[0].s;
      if |s| <= MAX_ROW_LENGTH && |rows| <= MAX_ROWS - 1 {
        RowsOnlyFrom(inputs[1..], rows + [s], key);
        assert forall i :: 1 <= i < |inputs| ==> inputs[i] == inputs[1..][i - 1];
        assert rows + [s] + RowStrings(inputs[1..]) == rows + RowStrings(inputs);
      }
    } else {
      assert rows + RowStrings(inputs) == rows;
    }
  }

  /** The pattern-only case from an empty start: at most three rows of at
      most three symbols are accepted as given; a fourth row or a longer row is
      rejected. */
  lemma RowsOnly(inputs: seq<Arg>)
    requires AllRows(inputs)
    ensures ParsePattern(inputs).Ok? <==>
              |inputs| <= MAX_ROWS && forall i :: 0 <= i < |inputs| ==> |inputs[i].s| <= MAX_ROW_LENGTH
    ensures ParsePattern(inputs).Ok? ==> ParsePattern(inputs).value.rows == RowStrings(inputs)
  {
    var none: seq<string> := [];
    RowsOnlyFrom(inputs, none, map[]);
    assert |none| + |inputs| == |inputs|;
    assert none + RowStrings(inputs) == RowStrings(inputs);
  }

  /** An argument of an unsupported type is rejected wherever it appears:
      either it stands where a row or symbol is expected, or it follows a
      symbol and cannot become an ingredient. */
  lemma {:induction false} UnknownRejected(inputs: seq<Arg>, rows: seq<string>, key: map<char, Ingredient>)
    requires exists i :: 0 <= i < |inputs| && inputs[i] == Unknown
    ensures ParseFrom(inputs, rows, key).Err?
    decreases |inputs|
  {
    var i :| 0 <= i < |inputs| && inputs[i] == Unknown;
    match inputs[0]
    case Str(s) =>
      if |s| <= MAX_ROW_LENGTH && |rows| <= MAX_ROWS - 1 {
        assert inputs[1..][i - 1] == Unknown;
        UnknownRejected(inputs[1..], rows + [s], key);
      }
    case Chr(c) =>
      if |inputs| >= 2 && AsIngredient(inputs[1]).Ok? {
        assert inputs[2..][i - 2] == Unknown;
        UnknownRejected(inputs[2..], rows, key[c := AsIngredient(inputs[1]).value]);
      }
    case _ =>
  }

  /** A leading string is a pattern row: too long, or one row too many, and
      the list fails; otherwise it is appended and reading goes on. */
  lemma RowStep(s: string, rest: seq<Arg>, rows: seq<string>, key: map<char, Ingredient>)
    ensures |s| > MAX_ROW_LENGTH ==> ParseFrom([Str(s)] + rest, rows, key) == Err(RowTooLong(|s|))
    ensures |s| <= MAX_ROW_LENGTH && |rows| >= MAX_ROWS ==> ParseFrom([Str(s)] + rest, rows, key) == Err(TooManyRows)
    ensures |s| <= MAX_ROW_LENGTH && |rows| < MAX_ROWS ==>
              ParseFrom([Str(s)] + rest, rows, key) == ParseFrom(rest, rows + [s], key)
  {
    assert ([Str(s)] + rest)[1..] == rest;
  }

  /** The usual call shape, rows first and then the key bindings, yields the
      rows in order and each symbol bound to its ingredient. */
  lemma RowsThenBindings(x: Ingredient)
    ensures ParsePattern([Str("ab"), Str(" a"), Chr('a'), Ingr(x), Chr('b'), Str("gem")])
              == Ok(Parsed(["ab", " a"], map['a' := x, 'b' := Ore("gem")]))
  {
    var b := [Chr('b'), Str("gem")];
    var bindings := [Chr('a'), Ingr(x)] + b;
    RowStep("ab", [Str(" a")] + bindings, [], map[]);
    RowStep(" a", bindings, ["ab"], map[]);
    SymbolBindsNext('a', Ingr(x), b, ["ab", " a"], map[]);
    SymbolBindsNext('b', Str("gem"), [], ["ab", " a"], map['a' := x]);
    assert [Str("ab"), Str(" a"), Chr('a'), Ingr(x), Chr('b'), Str("gem")] == [Str("ab")] + ([Str(" a")] + bindings);
    assert b == [Chr('b'), Str("gem")] + [];
    var k1 := map['a' := x];
    var k2 := k1['b' := Ore("gem")];
    assert ParseFrom([], ["ab", " a"], k2) == Ok(Parsed(["ab", " a"], k2));
    assert ParseFrom(b, ["ab", " a"], k1) == Ok(Parsed(["ab", " a"], k2));
    assert ParseFrom(bindings, ["ab", " a"], map[]) == Ok(Parsed(["ab", " a"], k2));
    assert ["ab"] + [" a"] == ["ab", " a"];
    assert ParseFrom([Str(" a")] + bindings, ["ab"], map[]) == Ok(Parsed(["ab", " a"], k2));
    assert [] + ["ab"] == ["ab"];
    assert k2 == map['a' := x, 'b' := Ore("gem")];
  }

  /** An ingredient, item or item stack where a row or symbol is expected is
      rejected. */
  lemma IngrWhereRowExpected(x: Ingredient, rest: seq<Arg>, rows: seq<string>, key: map<char, Ingredient>)
    ensures ParseFrom([Ingr(x)] + rest, rows, key) == Err(UnexpectedArgument)
  {
  }

  /** A symbol takes the argument after it as its ingredient, so a string in
      that position is an ore name and never a pattern row; a symbol with
      nothing after it is rejected. */
  lemma SymbolBindsNext(c: char, x: Arg, rest: seq<Arg>, rows: seq<string>, key: map<char, Ingredient>)
    ensures AsIngredient(x).Ok? ==>
              ParseFrom([Chr(c), x] + rest, rows, key) == ParseFrom(rest, rows, key[c := AsIngredient(x).value])
    ensures AsIngredient(x).Err? ==> ParseFrom([Chr(c), x] + rest, rows, key) == Err(NotAnIngredient)
    ensures ParseFrom([Chr(c)], rows, key) == Err(MissingIngredient)
  {
    assert ([Chr(c), x] + rest)[2..] == rest;
  }

  // ---------------------------------------------------------------------------
  // Laying out the grid
  // ---------------------------------------------------------------------------

  /** Row-major position of column `c` of row `r` in a grid `width` wide,
      counted row by row; `IdxIsRowMajor` shows it is `c + width * r`. */
  function Idx(width: nat, r: nat, c: nat): nat
    decreases r
  {
    if r == 0 then c else Idx(width, r - 1, c) + width
  }

  lemma {:induction false} IdxIsRowMajor(width: nat, r: nat, c: nat)
    ensures Idx(width, r, c) == c + width * r
    decreases r
  {
    if r > 0 {
      IdxIsRowMajor(width, r - 1, c);
    }
  }

  lemma {:induction false} IdxShift(width: nat, r: nat, c: nat)
    ensures Idx(width, r, c) == Idx(width, r, 0) + c
    decreases r
  {
    if r > 0 {
      IdxShift(width, r - 1, c);
    }
  }

  lemma {:induction false} IdxMonotonic(width: nat, a: nat, b: nat)
    requires a <= b
    ensures Idx(width, a, 0) <= Idx(width, b, 0)
    decreases b
  {
    if a < b {
      IdxMonotonic(width, a, b - 1);
    }
  }

  /** Every cell of a `width` by `height` grid lies before the start of row
      `height`. */
  lemma IdxBound(width: nat, height: nat, r: nat, c: nat)
    requires r < height && c < width
    ensures Idx(width, r, c) < Idx(width, height, 0)
  {
    IdxShift(width, r, c);
    IdxMonotonic(width, r + 1, height);
  }

  /** Row `r` owns the positions `[Idx(width, r, 0), Idx(width, r, 0) + width)`;
      every cell of another row lies outside them. */
  lemma RowsDisjoint(width: nat, r: nat, r': nat, c: nat)
    requires r' != r && c < width
    ensures Idx(width, r', c) < Idx(width, r, 0) || Idx(width, r', c) >= Idx(width, r, 0) + width
  {
    IdxShift(width, r', c);
    if r' < r {
      IdxMonotonic(width, r' + 1, r);
    } else {
      IdxMonotonic(width, r + 1, r');
    }
  }

  /** Writes one pattern row from column `c` on, the row starting at position
      `start` of the grid: each symbol's ingredient goes to `start` plus its
      column. A symbol without an ingredient, or a position past the end of the
      grid, is an error. */
  function FillRow(grid: seq<Ingredient>, row: string, key: map<char, Ingredient>, start: nat, c: nat)
    : (res: Result<seq<Ingredient>, RecipeError>)
    requires c <= |row|
    ensures res.Ok? ==> |res.value| == |grid|
    decreases |row| - c
  {
    if c == |row| then Ok(grid)
    else if row[c] !in key then Err(UnknownSymbol(row[c]))
    else if start + c >= |grid| then Err(IndexOutOfBounds(start + c))
    else FillRow(grid[start + c := key[row[c]]], row, key, start, c + 1)
  }

  /** Writes rows `r` onwards, top to bottom; row `r` starts at
      `Idx(width, r, 0)`, which is `width * r`. */
  function FillRows(grid: seq<Ingredient>, rows: seq<string>, key: map<char, Ingredient>, width: nat, r: nat)
    : (res: Result<seq<Ingredient>, RecipeError>)
    requires r <= |rows|
    ensures res.Ok? ==> |res.value| == |grid|
    decreases |rows| - r
  {
    if r == |rows| then Ok(grid)
    else
      var g :- FillRow(grid, rows[r], key, Idx(width, r, 0), 0);
      FillRows(g, rows, key, width, r + 1)
  }

  /** The ingredient list of a `width` by `height` recipe: all empty, then
      each pattern symbol's ingredient written at its row-major position. */
  function PrepareMaterials(rows: seq<string>, key: map<char, Ingredient>, width: nat, height: nat)
    : (res: Result<seq<Ingredient>, RecipeError>)
    ensures res.Ok? ==> |res.value| == width * height
  {
    FillRows(seq(width * height, _ => Empty), rows, key, width, 0)
  }

  /** No row is wider than the grid. */
  predicate RowsFit(rows: seq<string>, width: nat) {
    forall r :: 0 <= r < |rows| ==> |rows[r]| <= width
  }

  /** Every symbol of every row has an ingredient. */
  predicate Bound(rows: seq<string>, key: map<char, Ingredient>) {
    forall r, c :: 0 <= r < |rows| && 0 <= c < |rows[r]| ==> rows[r][c] in key
  }

  lemma {:induction false} FillRowLayout(grid: seq<Ingredient>, row: string, key: map<char, Ingredient>, start: nat, c: nat)
    requires c <= |row| && start + |row| <= |grid|
    requires forall j :: 0 <= j < |row| ==> row[j] in key
    ensures FillRow(grid, row, key, start, c).Ok?
    ensures var g := FillRow(grid, row, key, start, c).value;
            && (forall j :: c <= j < |row| ==> g[start + j] == key[row[j]])
            && (forall k :: 0 <= k < |grid| && (k < start + c || k >= start + |row|) ==> g[k] == grid[k])
    decreases |row| - c
  {
    if c < |row| {
      var grid' := grid[start + c := key[row[c]]];
      FillRowLayout(grid', row, key, start, c + 1);
    }
  }

  lemma {:induction false} FillRowsLayout(grid: seq<Ingredient>, rows: seq<string>, key: map<char, Ingredient>,
                                          width: nat, r: nat)
    requires |grid| == Idx(width, |rows|, 0) && r <= |rows|
    requires RowsFit(rows, width) && Bound(rows, key)
    ensures FillRows(grid, rows, key, width, r).Ok?
    ensures var g := FillRows(grid, rows, key, width, r).value;
            && (forall r', j :: 0 <= r' < |rows| && 0 <= j < width ==> Idx(width, r', j) < |g|)
            && (forall r', j :: r <= r' < |rows| && 0 <= j < |rows[r']| ==> g[Idx(width, r', j)] == key[rows[r'][j]])
            && (forall r', j :: 0 <= r' < |rows| && 0 <= j < width && (r' < r || j >= |rows[r']|) ==>
                  g[Idx(width, r', j)] == grid[Idx(width, r', j)])
    decreases |rows| - r
  {
    forall r', j | 0 <= r' < |rows| && 0 <= j < width
      ensures Idx(width, r', j) < |grid|
    {
      IdxBound(width, |rows|, r', j);
    }
    if r < |rows| {
      var row := rows[r];
      var start := Idx(width, r, 0);
      IdxMonotonic(width, r + 1, |rows|);
      FillRowLayout(grid, row, key, start, 0);
      var g1 := FillRow(grid, row, key, start, 0).value;
      FillRowsLayout(g1, rows, key, width, r + 1);
      var g := FillRows(grid, rows, key, width, r).value;
      assert g == FillRows(g1, rows, key, width, r + 1).value;
      forall j | 0 <= j < |row|
        ensures g[Idx(width, r, j)] == key[row[j]]
      {
        IdxShift(width, r, j);
        assert g[Idx(width, r, j)] == g1[Idx(width, r, j)];
      }
      forall r', j | 0 <= r' < |rows| && 0 <= j < width && (r' < r || j >= |rows[r']|)
        ensures g[Idx(width, r', j)] == grid[Idx(width, r', j)]
      {
        IdxBound(width, |rows|, r', j);
        IdxShift(width, r', j);
        if r' != r {
          RowsDisjoint(width, r, r', j);
        }
      }
    }
  }

  /** For a pattern whose rows are no wider than the first-row width and whose
      symbols are all bound, the grid has `width * height` cells, the symbol at
      row `r`, column `c` lands at `c + width * r`, and every cell no row
      reaches stays empty. */
  lemma PrepareMaterialsLayout(rows: seq<string>, key: map<char, Ingredient>, width: nat, height: nat)
    requires |rows| == height && RowsFit(rows, width) && Bound(rows, key)
    ensures PrepareMaterials(rows, key, width, height).Ok?
    ensures var g := PrepareMaterials(rows, key, width, height).value;
            && |g| == width * height
            && (forall r, c :: 0 <= r < height && 0 <= c < width ==> Idx(width, r, c) < |g|)
            && forall r, c :: 0 <= r < height && 0 <= c < width ==>
                 g[Idx(width, r, c)] == if c < |rows[r]| then key[rows[r][c]] else Empty
  {
    var grid := seq(width * height, _ => Empty);
    IdxIsRowMajor(width, height, 0);
    FillRowsLayout(grid, rows, key, width, 0);
    forall r, c | 0 <= r < height && 0 <= c < width
      ensures Idx(width, r, c) < |grid|
    {
      IdxBound(width, height, r, c);
    }
  }

  lemma {:induction false} FillRowUnbound(grid: seq<Ingredient>, row: string, key: map<char, Ingredient>,
                                          start: nat, c: nat, j: nat)
    requires c <= j < |row| && row[j] !in key
    ensures FillRow(grid, row, key, start, c).Err?
    decreases |row| - c
  {
    if c < j && row[c] in key && start + c < |grid| {
      FillRowUnbound(grid[start + c := key[row[c]]], row, key, start, c + 1, j);
    }
  }

  lemma {:induction false} FillRowsUnbound(grid: seq<Ingredient>, rows: seq<string>, key: map<char, Ingredient>,
                                           width: nat, r: nat, r0: nat, j: nat)
    requires r <= r0 < |rows| && j < |rows[r0]| && rows[r0][j] !in key
    ensures FillRows(grid, rows, key, width, r).Err?
    decreases |rows| - r
  {
    if r == r0 {
      FillRowUnbound(grid, rows[r], key, Idx(width, r, 0), 0, j);
    } else if FillRow(grid, rows[r], key, Idx(width, r, 0), 0).Ok? {
      FillRowsUnbound(FillRow(grid, rows[r], key, Idx(width, r, 0), 0).value, rows, key, width, r + 1, r0, j);
    }
  }

  /** A pattern symbol without an ingredient makes the grid fail, so for rows
      that fit the grid it succeeds exactly when every symbol is bound. */
  lemma PrepareMaterialsNeedsBindings(rows: seq<string>, key: map<char, Ingredient>, width: nat, height: nat)
    requires |rows| == height && RowsFit(rows, width)
    ensures PrepareMaterials(rows, key, width, height).Ok? <==> Bound(rows, key)
  {
    if !Bound(rows, key) {
      var r, c :| 0 <= r < |rows| && 0 <= c < |rows[r]| && rows[r][c] !in key;
      FillRowsUnbound(seq(width * height, _ => Empty), rows, key, width, 0, r, c);
    } else {
      PrepareMaterialsLayout(rows, key, width, height);
    }
  }

  /** A row whose symbols are bound and which starts inside the grid but ends
      past it fails at the first position past the end. */
  lemma {:induction false} FillRowOverrun(grid: seq<Ingredient>, row: string, key: map<char, Ingredient>, start: nat, c: nat)
    requires start + c <= |grid| < start + |row|
    requires forall j :: 0 <= j < |row| ==> row[j] in key
    ensures FillRow(grid, row, key, start, c) == Err(IndexOutOfBounds(|grid|))
    decreases |row| - c
  {
    if start + c < |grid| {
      FillRowOverrun(grid[start + c := key[row[c]]], row, key, start, c + 1);
    }
  }

  lemma {:induction false} FillRowsOverrun(grid: seq<Ingredient>, rows: seq<string>, key: map<char, Ingredient>,
                                           width: nat, r: nat)
    requires |grid| == Idx(width, |rows|, 0) && r < |rows|
    requires forall r' :: r <= r' < |rows| - 1 ==> |rows[r']| <= width
    requires |rows[|rows| - 1]| > width && Bound(rows, key)
    ensures FillRows(grid, rows, key, width, r) == Err(IndexOutOfBounds(|grid|))
    decreases |rows| - r
  {
    var start := Idx(width, r, 0);
    IdxMonotonic(width, r + 1, |rows|);
    if r == |rows| - 1 {
      FillRowOverrun(grid, rows[r], key, start, 0);
    } else {
      FillRowLayout(grid, rows[r], key, start, 0);
      FillRowsOverrun(FillRow(grid, rows[r], key, start, 0).value, rows, key, width, r + 1);
    }
  }

  /** A bound pattern whose earlier rows fit but whose last row is wider
      than the grid runs off the end: the write at index `width * height`
      fails. */
  lemma LastRowOverruns(rows: seq<string>, key: map<char, Ingredient>, width: nat, height: nat)
    requires |rows| == height >= 1 && Bound(rows, key)
    requires forall r :: 0 <= r < height - 1 ==> |rows[r]| <= width
    requires |rows[height - 1]| > width
    ensures PrepareMaterials(rows, key, width, height) == Err(IndexOutOfBounds(width * height))
  {
    IdxIsRowMajor(width, height, 0);
    FillRowsOverrun(seq(width * height, _ => Empty), rows, key, width, 0);
  }

  /** Rows are not checked against the first row's width: in a grid two
      wide, a three-symbol middle row runs on into the first cell of the next
      row. */
  lemma RaggedRows()
    ensures PrepareMaterials(["ab", "cde", ""], map['a' := Of(0), 'b' := Of(1), 'c' := Of(2), 'd' := Of(3), 'e' := Of(4)], 2, 3)
              == Ok([Of(0), Of(1), Of(2), Of(3), Of(4), Empty])
  {
    var key := map['a' := Of(0), 'b' := Of(1), 'c' := Of(2), 'd' := Of(3), 'e' := Of(4)];
    var g1 := [Of(0), Of(1), Empty, Empty, Empty, Empty];
    var g2 := [Of(0), Of(1), Of(2), Of(3), Of(4), Empty];
    assert Idx(2, 1, 0) == 2 && Idx(2, 2, 0) == 4;
    assert "ab"[0] == 'a' && "ab"[1] == 'b' && "cde"[0] == 'c' && "cde"[1] == 'd' && "cde"[2] == 'e';
    assert seq(2 * 3, _ => Empty)[0 := Of(0)][1 := Of(1)] == g1;
    assert FillRow(seq(2 * 3, _ => Empty), "ab", key, 0, 0) == Ok(g1);
    assert g1[2 := Of(2)][3 := Of(3)][4 := Of(4)] == g2;
    assert FillRow(g1, "cde", key, 2, 0) == Ok(g2);
    assert FillRows(g2, ["ab", "cde", ""], key, 2, 2) == Ok(g2);
  }

  // ---------------------------------------------------------------------------
  // Recipe names
  // ---------------------------------------------------------------------------

  function DigitChar(d: nat): char
    requires d < 10
  {
    ('0' as int + d) as char
  }

  /** Decimal digits of `n`, as Java prints an `int`. */
  function NatToString(n: nat): (s: string)
    ensures |s| >= 1
    decreases n
  {
    if n < 10 then [DigitChar(n)] else NatToString(n / 10) + [DigitChar(n % 10)]
  }

  function DigitValue(ch: char): nat {
    if '0' <= ch <= '9' then ch as int - '0' as int else 0
  }

  function ParseDecimal(s: string): nat
    decreases |s|
  {
    if |s| == 0 then 0 else ParseDecimal(s[..|s| - 1]) * 10 + DigitValue(s[|s| - 1])
  }

  /** Printing a number and reading it back gives the number. */
  lemma {:induction false} DecimalRoundTrip(n: nat)
    ensures ParseDecimal(NatToString(n)) == n
    decreases n
  {
    var s := NatToString(n);
    if n >= 10 {
      DecimalRoundTrip(n / 10);
      assert s[..|s| - 1] == NatToString(n / 10);
    } else {
      assert s[..|s| - 1] == [];
    }
  }

  /** The `index`-th candidate name: the base name itself, then
      `base_1`, `base_2`, ... in the same namespace. */
  function RecipeName(base: Loc, index: nat): Loc {
    if index == 0 then base else Loc(base.namespace, base.path + "_" + NatToString(index))
  }

  /** Distinct indices give distinct candidate names. */
  lemma RecipeNameInjective(base: Loc, i: nat, j: nat)
    requires RecipeName(base, i) == RecipeName(base, j)
    ensures i == j
  {
    var p := base.path;
    if i != 0 && j != 0 {
      var a := p + "_" + NatToString(i);
      var b := p + "_" + NatToString(j);
      assert a == b;
      assert a[|p| + 1..] == NatToString(i);
      assert b[|p| + 1..] == NatToString(j);
      DecimalRoundTrip(i);
      DecimalRoundTrip(j);
    }
  }

  /** The first candidate index from `index` on whose name is not in `used`.
      Each skipped name is in `used` and is dropped from it, so `used` shrinks
      on every step and the search ends. */
  function FreshIndex(base: Loc, used: set<Loc>, index: nat): (k: nat)
    ensures index <= k
    ensures RecipeName(base, k) !in used
    ensures forall i :: index <= i < k ==> RecipeName(base, i) in used
    decreases |used|
  {
    var name := RecipeName(base, index);
    if name !in used then index
    else
      var k := FreshIndex(base, used - {name}, index + 1);
      assert RecipeName(base, k) != name by {
        if RecipeName(base, k) == name {
          RecipeNameInjective(base, k, index);
        }
      }
      k
  }

  /** The registry name of an output's item; the host throws when it has
      none. */
  function OutputName(output: Stack): Result<Loc, RecipeError> {
    if output.item.registryName.Some? then Ok(output.item.registryName.value) else Err(NoRegistryName)
  }

  /** The recipe group: the output item's registry name, printed. */
  function OutputGroup(output: Stack): (r: Result<string, RecipeError>)
    ensures r.Ok? <==> output.item.registryName.Some?
    ensures r.Ok? ==> r.value == LocString(output.item.registryName.value)
  {
    var loc :- OutputName(output);
    Ok(LocString(loc))
  }

  /** The name a new recipe gets for an output whose item is registered as
      `item`: the item's path under `namespace` if no recipe uses it yet,
      otherwise `path_k` for the smallest `k >= 1` no recipe uses. (The output
      item's missing registry name is reported where it is first read, by
      `OutputGroup`.) */
  function UnusedLocForOutput(namespace: string, item: Loc, used: seq<Loc>): (r: Loc)
    ensures r !in used
    ensures var base := Loc(namespace, item.path);
            && (base !in used ==> r == base)
            && (base in used ==>
                  exists k :: k >= 1 && r == RecipeName(base, k) &&
                    forall i :: 1 <= i < k ==> RecipeName(base, i) in used)
  {
    var base := Loc(namespace, item.path);
    RecipeName(base, FreshIndex(base, set n | n in used, 0))
  }

  /** The first recipe for an output is named after it, the second gets the
      suffix `_1`. */
  lemma FirstNamesForOutput(namespace: string, item: Loc)
    ensures var base := Loc(namespace, item.path);
            && UnusedLocForOutput(namespace, item, []) == base
            && UnusedLocForOutput(namespace, item, [base]) == Loc(namespace, base.path + "_1")
  {
    var base := Loc(namespace, item.path);
    assert NatToString(1) == "1";
    assert base.path + "_" + "1" == base.path + "_1";
    assert RecipeName(base, 1) != base by {
      assert |RecipeName(base, 1).path| > |base.path|;
    }
    assert (set n | n in [base]) == {base};
    assert FreshIndex(base, {}, 1) == 1;
    assert FreshIndex(base, {base}, 0) == 1;
  }

  // ---------------------------------------------------------------------------
  // Building and registering
  // ---------------------------------------------------------------------------

  /** Adds a named recipe; a recipe whose output is empty is rejected. */
  function AddRecipe(reg: Registry, name: Loc, recipe: ShapedRecipe): (r: Result<Registry, RecipeError>)
    ensures r.Err? <==> IsEmpty(recipe.output)
    ensures r.Ok? ==> r.value.usedNames == reg.usedNames + [name]
    ensures r.Ok? ==> r.value.recipes == reg.recipes + [NamedRecipe(name, recipe)]
  {
    if IsEmpty(recipe.output) then Err(EmptyOutput)
    else Ok(Registry(reg.usedNames + [name], reg.recipes + [NamedRecipe(name, recipe)]))
  }

  /** Builds the recipe described by `inputs`: width is the first row's
      length, height the number of rows, and the space symbol always stands for
      the empty ingredient. */
  function BuildShaped(inputs: seq<Arg>, output: Stack): (r: Result<ShapedRecipe, RecipeError>)
    ensures r.Ok? ==> 1 <= r.value.height <= MAX_ROWS && r.value.width <= MAX_ROW_LENGTH
    ensures r.Ok? ==> |r.value.ingredients| == r.value.width * r.value.height
    ensures r.Ok? ==> r.value.output == output && output.item.registryName.Some?
    ensures r.Ok? ==> r.value.group == LocString(output.item.registryName.value)
  {
    var parsed :- ParsePattern(inputs);
    if |parsed.rows| == 0 then Err(NoPattern)
    else
      var width := |parsed.rows[0]|;
      var height := |parsed.rows|;
      var key := parsed.key[' ' := Empty];
      var ingredients :- PrepareMaterials(parsed.rows, key, width, height);
      var group :- OutputGroup(output);
      Ok(ShapedRecipe(group, width, height, ingredients, output))
  }

  /** The whole registration: build, name and add. On success exactly one
      name, unused until now, and one recipe are added. */
  function AddShapedRecipe(namespace: string, reg: Registry, output: Stack, inputs: seq<Arg>): (r: Result<Registry, RecipeError>)
    ensures r.Ok? ==> !IsEmpty(output)
    ensures r.Ok? ==>
              && |r.value.usedNames| == |reg.usedNames| + 1
              && r.value.usedNames[..|reg.usedNames|] == reg.usedNames
              && r.value.usedNames[|reg.usedNames|] !in reg.usedNames
              && |r.value.recipes| == |reg.recipes| + 1
              && r.value.recipes[..|reg.recipes|] == reg.recipes
              && r.value.recipes[|reg.recipes|].name == r.value.usedNames[|reg.usedNames|]
              && r.value.recipes[|reg.recipes|].recipe.output == output
    ensures r.Ok? <==> BuildShaped(inputs, output).Ok? && !IsEmpty(output)
    ensures r.Ok? ==>
              && r.value.recipes[|reg.recipes|].recipe == BuildShaped(inputs, output).value
              && r.value.usedNames[|reg.usedNames|]
                   == UnusedLocForOutput(namespace, output.item.registryName.value, reg.usedNames)
  {
    var recipe :- BuildShaped(inputs, output);
    var name := UnusedLocForOutput(namespace, output.item.registryName.value, reg.usedNames);
    AddRecipe(reg, name, recipe)
  }

  /** What a pattern places in each cell once built: the bound ingredient of
      its symbol, the empty ingredient for a space (whatever the caller bound
      it to) and for every cell past the end of a short row. */
  lemma ShapedLayout(inputs: seq<Arg>, output: Stack, rows: seq<string>, key: map<char, Ingredient>)
    requires ParsePattern(inputs) == Ok(Parsed(rows, key))
    requires |rows| >= 1 && RowsFit(rows, |rows[0]|)
    requires forall r, c :: 0 <= r < |rows| && 0 <= c < |rows[r]| ==> rows[r][c] == ' ' || rows[r][c] in key
    requires output.item.registryName.Some?
    ensures BuildShaped(inputs, output).Ok?
    ensures var recipe := BuildShaped(inputs, output).value;
            && recipe.width == |rows[0]| && recipe.height == |rows|
            && (forall r, c :: 0 <= r < recipe.height && 0 <= c < recipe.width ==>
                  Idx(recipe.width, r, c) < |recipe.ingredients|)
            && forall r, c :: 0 <= r < recipe.height && 0 <= c < recipe.width ==>
                 recipe.ingredients[Idx(recipe.width, r, c)] ==
                   if c < |rows[r]| && rows[r][c] != ' ' then key[rows[r][c]] else Empty
  {
    var key' := key[' ' := Empty];
    PrepareMaterialsLayout(rows, key', |rows[0]|, |rows|);
  }

  /** Names are never reused, and each recipe is filed under its name. */
  predicate ValidRegistry(reg: Registry) {
    && |reg.usedNames| == |reg.recipes|
    && (forall i, j :: 0 <= i < j < |reg.usedNames| ==> reg.usedNames[i] != reg.usedNames[j])
    && (forall i :: 0 <= i < |reg.recipes| ==> reg.recipes[i].name == reg.usedNames[i])
  }

  /** Registering through the shaped-recipe builder keeps the registry
      valid: names stay pairwise distinct and each recipe stays filed under its
      own name. */
  lemma AddShapedRecipeKeepsValid(namespace: string, reg: Registry, output: Stack, inputs: seq<Arg>)
    requires ValidRegistry(reg)
    ensures AddShapedRecipe(namespace, reg, output, inputs).Ok? ==>
              ValidRegistry(AddShapedRecipe(namespace, reg, output, inputs).value)
  {
    var r := AddShapedRecipe(namespace, reg, output, inputs);
    if r.Ok? {
      var names := r.value.usedNames;
      var n := |reg.usedNames|;
      forall i, j | 0 <= i < j < |names|
        ensures names[i] != names[j]
      {
        if j == n {
          assert names[i] == reg.usedNames[i];
        } else {
          assert names[i] == reg.usedNames[i] && names[j] == reg.usedNames[j];
        }
      }
      forall i | 0 <= i < |r.value.recipes|
        ensures r.value.recipes[i].name == names[i]
      {
        if i < n {
          assert r.value.recipes[i] == reg.recipes[i];
          assert names[i] == reg.usedNames[i];
        }
      }
    }
  }
}

=== FILE: resolver.dfy ===
/** The ring effect resolver (ItemRing.java): how many worn rings share an
    effect, the amplifier that follows from that count, when a stale effect is
    removed and a fresh one applied, when a worn ring refreshes, and how its
    durability counter runs down. Each host call the Java code makes becomes an
    instruction value; the wearer's effect table and ring slots are inputs. */
module Resolver {
  import opened Wrappers
  import opened Rings

  /** Duration, in ticks, of every effect a ring applies. */
  const EFFECT_DURATION: int := 199
  /** A worn ring refreshes its effect every this many ticks. */
  const EFFECT_REFRESH_RATE: int := EFFECT_DURATION / 2

  /** An effect currently active on the wearer. */
  datatype ActiveEffect = ActiveEffect(amplifier: int, duration: int)

  /** What the resolver sees of the wearer: whether it is a player, whether
      its world is the client-side copy, its age in ticks and its active
      effects. */
  datatype Wearer = Wearer(isPlayer: bool, remote: bool, ticksExisted: int, effects: map<Potion, ActiveEffect>)

  /** A new effect instance handed to the wearer. */
  datatype PotionEffect = PotionEffect(potion: Potion, duration: int, amplifier: int, ambient: bool, showParticles: bool)

  /** The resolver's instructions, carried out in order: first remove the
      named effect, then add the new one. */
  datatype EffectUpdate = EffectUpdate(remove: Option<Potion>, apply: Option<PotionEffect>)

  const NO_UPDATE: EffectUpdate := EffectUpdate(None, None)

  /** What a refresh does to the ring's durability counter. */
  datatype DurabilityUpdate = KeepDurability | StoreDurability(value: int32) | Break

  /** What one worn tick does. */
  datatype TickUpdate = Idle | Refresh(effect: EffectUpdate, durability: DurabilityUpdate)

  function Min(a: int, b: int): int {
    if a <= b then a else b
  }

  /** The resolver acts only for a player on the authoritative (server)
      side. */
  predicate Acts(w: Wearer) {
    w.isPlayer && !w.remote
  }

  // ---------------------------------------------------------------------------
  // Counting matching rings
  // ---------------------------------------------------------------------------

  /** The effect seen in slot `i`. While unequipping, the subject ring's own
      slot reads as holding no effect. `subject` is the index of the slot
      holding the very stack being evaluated, if any. */
  function SlotPotion(reg: PotionRegistry, slots: seq<Stack>, subject: Option<nat>, unequipping: bool, i: nat): Option<Potion>
    requires i < |slots|
  {
    if unequipping && subject == Some(i) then None else GetPotion(reg, slots[i])
  }

  /** The effect seen in every slot, in slot order. */
  function EffectiveKinds(reg: PotionRegistry, slots: seq<Stack>, subject: Option<nat>, unequipping: bool): seq<Option<Potion>> {
    seq(|slots|, i requires 0 <= i < |slots| => SlotPotion(reg, slots, subject, unequipping, i))
  }

  /** The effect bound to each stack, in slot order. */
  function Kinds(reg: PotionRegistry, slots: seq<Stack>): seq<Option<Potion>> {
    seq(|slots|, i requires 0 <= i < |slots| => GetPotion(reg, slots[i]))
  }

  /** How many slots show effect `p`: the reference count the level is
      specified by. */
  function MatchCount(reg: PotionRegistry, slots: seq<Stack>, subject: Option<nat>, unequipping: bool, p: Potion): nat {
    multiset(EffectiveKinds(reg, slots, subject, unequipping))[Some(p)]
  }

  /** The Java loop over the first `n` slots: the level starts at -1 and goes
      up by one per slot showing `p`. */
  function RawLevel(reg: PotionRegistry, slots: seq<Stack>, subject: Option<nat>, unequipping: bool, p: Potion, n: nat): (level: int)
    requires n <= |slots|
    ensures level + 1 == multiset(EffectiveKinds(reg, slots, subject, unequipping)[..n])[Some(p)]
  {
    if n == 0 then -1
    else
      var kinds := EffectiveKinds(reg, slots, subject, unequipping);
      assert kinds[..n] == kinds[..n - 1] + [kinds[n - 1]];
      RawLevel(reg, slots, subject, unequipping, p, n - 1)
        + (if SlotPotion(reg, slots, subject, unequipping, n - 1) == Some(p) then 1 else 0)
  }

  /** The amplifier the rings sustain for `p`: one less than the number of
      slots showing `p`, capped at 1; -1 means none of them does. */
  function Level(reg: PotionRegistry, slots: seq<Stack>, subject: Option<nat>, unequipping: bool, p: Potion): (level: int)
    ensures -1 <= level <= 1
    ensures level == Min(MatchCount(reg, slots, subject, unequipping, p) - 1, 1)
  {
    var kinds := EffectiveKinds(reg, slots, subject, unequipping);
    assert kinds[..|slots|] == kinds;
    var level := RawLevel(reg, slots, subject, unequipping, p, |slots|);
    if level > 1 then 1 else level
  }

  // ---------------------------------------------------------------------------
  // The resolver
  // ---------------------------------------------------------------------------

  /** One evaluation of the resolver for the effect `potion` of the subject
      ring. The stale-effect test dereferences the active effect only after
      comparing levels, exactly as the Java code does; the verifier checks that
      this dereference never meets an absent effect. */
  function UpdatePotionStatus(reg: PotionRegistry, w: Wearer, potion: Option<Potion>, slots: seq<Stack>,
                              subject: Option<nat>, unequipping: bool): (u: EffectUpdate)
    ensures potion.None? || !Acts(w) ==> u == NO_UPDATE
    ensures potion.Some? && Acts(w) ==>
              var p := potion.value;
              var n := MatchCount(reg, slots, subject, unequipping, p);
              && (u.apply.Some? <==> n >= 1)
              && (n >= 1 ==> u.apply == Some(PotionEffect(p, 199, Min(n - 1, 1), true, false)))
              && (u.remove.Some? <==>
                    && unequipping
                    && p in w.effects
                    && w.effects[p].amplifier > Min(n - 1, 1)
                    && w.effects[p].duration <= 199)
              && (u.remove.Some? ==> u.remove == Some(p))
  {
    if potion.None? || w.remote || !w.isPlayer then NO_UPDATE
    else
      var p := potion.value;
      var level := Level(reg, slots, subject, unequipping, p);
      var current := if p in w.effects then Some(w.effects[p]) else None;
      var currentLevel := if current.Some? then current.value.amplifier else -1;
      var remove :=
        && (currentLevel <= level || current.Some?)
        && unequipping && currentLevel > level && current.value.duration <= EFFECT_DURATION;
      EffectUpdate(
        if remove then Some(p) else None,
        if level != -1 then Some(PotionEffect(p, EFFECT_DURATION, level, true, false)) else None)
  }

  /** Equipping a ring evaluates the resolver for the ring's own effect;
      a bound ring sitting in its slot always grants its effect to a player on
      the server. */
  function OnEquipped(reg: PotionRegistry, w: Wearer, stack: Stack, slots: seq<Stack>, subject: Option<nat>): (u: EffectUpdate)
    ensures u.remove.None?
    ensures Acts(w) && GetPotion(reg, stack).Some? && subject.Some? && subject.value < |slots| && slots[subject.value] == stack ==>
              u.apply.Some? && u.apply.value.potion == GetPotion(reg, stack).value
  {
    assert GetPotion(reg, stack).Some? && subject.Some? && subject.value < |slots| && slots[subject.value] == stack ==>
             MatchCount(reg, slots, subject, false, GetPotion(reg, stack).value) >= 1 by {
      if GetPotion(reg, stack).Some? && subject.Some? && subject.value < |slots| && slots[subject.value] == stack {
        OwnSlotCounts(reg, slots, subject.value, GetPotion(reg, stack).value);
      }
    }
    UpdatePotionStatus(reg, w, GetPotion(reg, stack), slots, subject, false)
  }

  /** Unequipping a ring evaluates the resolver with the ring's slot ignored:
      the effect stays applied only while some other slot still grants it. */
  function OnUnequipped(reg: PotionRegistry, w: Wearer, stack: Stack, slots: seq<Stack>, subject: Option<nat>): (u: EffectUpdate)
    ensures u.apply.Some? ==>
              exists j :: 0 <= j < |slots| && subject != Some(j) && GetPotion(reg, slots[j]) == GetPotion(reg, stack)
    ensures Acts(w) && GetPotion(reg, stack).Some? &&
            (exists j :: 0 <= j < |slots| && subject != Some(j) && GetPotion(reg, slots[j]) == GetPotion(reg, stack)) ==>
              u.apply.Some?
  {
    var p := GetPotion(reg, stack);
    assert p.Some? && (exists j :: 0 <= j < |slots| && subject != Some(j) && GetPotion(reg, slots[j]) == p) ==>
             MatchCount(reg, slots, subject, true, p.value) >= 1 by {
      if p.Some? && exists j :: 0 <= j < |slots| && subject != Some(j) && GetPotion(reg, slots[j]) == p {
        OtherSlotCounts(reg, slots, subject, p.value);
      }
    }
    assert p.Some? && MatchCount(reg, slots, subject, true, p.value) >= 1 ==>
             exists j :: 0 <= j < |slots| && subject != Some(j) && GetPotion(reg, slots[j]) == p by {
      if p.Some? && MatchCount(reg, slots, subject, true, p.value) >= 1 {
        var kinds := EffectiveKinds(reg, slots, subject, true);
        assert p in multiset(kinds);
        assert p in kinds;
      }
    }
    UpdatePotionStatus(reg, w, p, slots, subject, true)
  }

  // ---------------------------------------------------------------------------
  // Durability
  // ---------------------------------------------------------------------------

  /** One use of a ring with `durability` left: a ring with some left loses
      one, a ring with none left breaks; a negative counter, a client-side
      world or a non-player wearer changes nothing. */
  function UpdateDurabilityStatus(w: Wearer, durability: int32): (u: DurabilityUpdate)
    ensures !Acts(w) || durability < 0 ==> u == KeepDurability
    ensures Acts(w) && durability >= 1 ==> u == StoreDurability(durability - 1)
    ensures Acts(w) && durability == 0 ==> u == Break
  {
    if durability < 0 || w.remote || !w.isPlayer then KeepDurability
    else if durability - 1 >= 0 then StoreDurability(durability - 1)
    else Break
  }

  /** The stack after a durability instruction: the counter is rewritten in
      the stack's tag (creating the tag if missing), or the stack's count drops
      to zero. */
  function ApplyDurability(s: Stack, u: DurabilityUpdate): (r: Stack)
    ensures u.KeepDurability? ==> r == s
    ensures u.StoreDurability? ==>
              && HasDurabilityTag(r) && r.tag.value.durability.value == u.value
              && r.item == s.item && r.count == s.count && r.meta == s.meta
              && EffectId(r) == EffectId(s) && MaxDamage(r) == MaxDamage(s)
    ensures u.Break? ==> IsEmpty(r) && r.(count := s.count) == s
  {
    match u
    case KeepDurability => s
    case StoreDurability(v) =>
      var tag := if s.tag.Some? then s.tag.value else NEW_TAG;
      s.(tag := Some(tag.(durability := Some(v))))
    case Break => s.(count := 0)
  }

  /** A ring with `d >= 1` left reads back `d - 1` after one use and keeps its
      effect; a ring with none left becomes an empty stack with no effect and
      no durability. */
  lemma DurabilityStep(reg: PotionRegistry, w: Wearer, s: Stack)
    requires Acts(w) && !IsEmpty(s) && GetDurability(s) >= 0
    ensures var s' := ApplyDurability(s, UpdateDurabilityStatus(w, GetDurability(s)));
            && (GetDurability(s) >= 1 ==>
                  && GetDurability(s') == GetDurability(s) - 1
                  && GetPotion(reg, s') == GetPotion(reg, s)
                  && !IsEmpty(s'))
            && (GetDurability(s) == 0 ==>
                  && IsEmpty(s')
                  && GetPotion(reg, s') == None
                  && GetDurability(s') == NO_DURABILITY)
  {
  }

  // ---------------------------------------------------------------------------
  // Worn tick
  // ---------------------------------------------------------------------------

  /** One tick of a worn ring. It refreshes when it is bound to an effect and
      either the wearer's age is a multiple of the refresh rate or the effect
      has lapsed; a refresh also spends durability when the ring has a
      counter. (The Java remainder truncates towards zero, Dafny's is
      Euclidean; they agree on whether the remainder is zero.) */
  function OnWornTick(reg: PotionRegistry, w: Wearer, stack: Stack, slots: seq<Stack>, subject: Option<nat>): (u: TickUpdate)
    ensures u.Refresh? <==>
              GetPotion(reg, stack).Some? &&
              (w.ticksExisted % 99 == 0 || GetPotion(reg, stack).value !in w.effects)
    ensures u.Refresh? ==> u.effect == UpdatePotionStatus(reg, w, GetPotion(reg, stack), slots, subject, false)
    ensures u.Refresh? && u.durability != KeepDurability ==>
              Acts(w) && !IsEmpty(stack) && HasDurabilityTag(stack) && GetDurability(stack) >= 0
    ensures u.Refresh? && Acts(w) && !IsEmpty(stack) && HasDurabilityTag(stack) && GetDurability(stack) >= 0 ==>
              u.durability == UpdateDurabilityStatus(w, GetDurability(stack))
  {
    var potion := GetPotion(reg, stack);
    if potion.Some? && (w.ticksExisted % EFFECT_REFRESH_RATE == 0 || potion.value !in w.effects) then
      var effect := UpdatePotionStatus(reg, w, potion, slots, subject, false);
      var durability := GetDurability(stack);
      Refresh(effect, if durability > NO_DURABILITY then UpdateDurabilityStatus(w, durability) else KeepDurability)
    else Idle
  }

  // ---------------------------------------------------------------------------
  // Properties relating several evaluations
  // ---------------------------------------------------------------------------

  /** Mapping stacks to their effects respects concatenation. */
  lemma KindsAppend(reg: PotionRegistry, a: seq<Stack>, b: seq<Stack>)
    ensures Kinds(reg, a + b) == Kinds(reg, a) + Kinds(reg, b)
  {
  }

  /** Rearranging the slots rearranges their effects the same way. */
  lemma {:induction false} KindsPermutation(reg: PotionRegistry, a: seq<Stack>, b: seq<Stack>)
    requires multiset(a) == multiset(b)
    ensures multiset(Kinds(reg, a)) == multiset(Kinds(reg, b))
    decreases |a|
  {
    assert |a| == |multiset(a)| == |multiset(b)| == |b|;
    if |a| > 0 {
      var x := a[0];
      assert x in multiset(b);
      var k :| 0 <= k < |b| && b[k] == x;
      var b' := b[..k] + b[k + 1..];
      assert a == [x] + a[1..];
      assert b == b[..k] + [x] + b[k + 1..];
      assert multiset(a) == multiset{x} + multiset(a[1..]);
      assert multiset(b) == multiset(b[..k]) + multiset{x} + multiset(b[k + 1..]);
      assert multiset(b') == multiset(b[..k]) + multiset(b[k + 1..]);
      assert multiset(a[1..]) == multiset(a) - multiset{x};
      assert multiset(b') == multiset(b) - multiset{x};
      KindsPermutation(reg, a[1..], b');
      KindsAppend(reg, [x], a[1..]);
      KindsAppend(reg, b[..k] + [x], b[k + 1..]);
      KindsAppend(reg, b[..k], [x]);
      KindsAppend(reg, b[..k], b[k + 1..]);
    }
  }

  /** While equipping or refreshing, the level depends only on which rings are
      worn, not on the slots they occupy. */
  lemma LevelIgnoresSlotOrder(reg: PotionRegistry, a: seq<Stack>, b: seq<Stack>,
                              subjectA: Option<nat>, subjectB: Option<nat>, p: Potion)
    requires multiset(a) == multiset(b)
    ensures Level(reg, a, subjectA, false, p) == Level(reg, b, subjectB, false, p)
  {
    assert EffectiveKinds(reg, a, subjectA, false) == Kinds(reg, a);
    assert EffectiveKinds(reg, b, subjectB, false) == Kinds(reg, b);
    KindsPermutation(reg, a, b);
  }

  /** Unequipping the ring in slot `i` resolves exactly as if that slot were
      already empty. */
  lemma UnequipIgnoresOwnSlot(reg: PotionRegistry, slots: seq<Stack>, i: nat, p: Potion)
    requires i < |slots|
    ensures Level(reg, slots, Some(i), true, p) == Level(reg, slots[i := EMPTY], Some(i), false, p)
  {
    assert EffectiveKinds(reg, slots, Some(i), true) == EffectiveKinds(reg, slots[i := EMPTY], Some(i), false);
  }

  /** While not unequipping, the subject's own slot counts; while unequipping,
      it is the only slot whose count is withdrawn. */
  lemma OwnSlotCounts(reg: PotionRegistry, slots: seq<Stack>, i: nat, p: Potion)
    requires i < |slots| && GetPotion(reg, slots[i]) == Some(p)
    ensures MatchCount(reg, slots, Some(i), false, p) >= 1
    ensures Level(reg, slots, Some(i), false, p) >= 0
    ensures MatchCount(reg, slots, Some(i), true, p) == MatchCount(reg, slots, Some(i), false, p) - 1
  {
    var equip := EffectiveKinds(reg, slots, Some(i), false);
    var unequip := EffectiveKinds(reg, slots, Some(i), true);
    assert equip[i] == Some(p);
    assert unequip == equip[i := None];
    assert Some(p) in multiset(equip);
  }

  /** While unequipping, any slot other than the subject's that shows `p`
      counts towards the level. */
  lemma OtherSlotCounts(reg: PotionRegistry, slots: seq<Stack>, subject: Option<nat>, p: Potion)
    requires exists j :: 0 <= j < |slots| && subject != Some(j) && GetPotion(reg, slots[j]) == Some(p)
    ensures MatchCount(reg, slots, subject, true, p) >= 1
  {
    var j :| 0 <= j < |slots| && subject != Some(j) && GetPotion(reg, slots[j]) == Some(p);
    var kinds := EffectiveKinds(reg, slots, subject, true);
    assert kinds[j] == Some(p);
    assert Some(p) in multiset(kinds);
  }

  /** A worn ring bound to an effect always (re)applies that effect when it
      refreshes for a player on the server. */
  lemma WornRingApplies(reg: PotionRegistry, w: Wearer, slots: seq<Stack>, i: nat)
    requires i < |slots| && Acts(w) && GetPotion(reg, slots[i]).Some?
    ensures var u := OnWornTick(reg, w, slots[i], slots, Some(i));
            u.Refresh? ==> u.effect.apply.Some? && u.effect.apply.value.potion == GetPotion(reg, slots[i]).value
  {
    assert OnEquipped(reg, w, slots[i], slots, Some(i)).apply.Some?;
  }

  /** Taking off one of exactly two worn rings of the same effect while the
      doubled effect (amplifier 1) is still running on the ring's schedule
      removes it and reapplies the effect at amplifier 0. */
  lemma UnequipOneOfTwo(reg: PotionRegistry, w: Wearer, slots: seq<Stack>, i: nat, p: Potion)
    requires Acts(w) && i < |slots| && GetPotion(reg, slots[i]) == Some(p)
    requires MatchCount(reg, slots, Some(i), false, p) == 2
    requires p in w.effects && w.effects[p].amplifier == 1 && w.effects[p].duration <= EFFECT_DURATION
    ensures OnUnequipped(reg, w, slots[i], slots, Some(i))
              == EffectUpdate(Some(p), Some(PotionEffect(p, EFFECT_DURATION, 0, true, false)))
  {
    OwnSlotCounts(reg, slots, i, p);
  }
}

=== FILE: rings.dfy ===
/** The ring item and the per-stack data it reads: the bound effect tag, the
    optional durability counters, the damage values derived from them and the
    translation key of each variant (ItemRing.java). Host objects (items,
    stacks, tag compounds, the potion registry) are plain immutable values. */
module Rings {
  import opened Wrappers

  // ---------------------------------------------------------------------------
  // Java `int`
  // ---------------------------------------------------------------------------

  const INT_MIN: int := -0x8000_0000
  const INT_MAX: int := 0x7fff_ffff

  /** A value of Java's 32-bit `int` (NBT integer tags hold these). */
  type int32 = x: int | INT_MIN <= x <= INT_MAX

  /** Two's complement wrap-around of a Java `int` operation whose exact
      result is `x`. */
  function Wrap32(x: int): (r: int32)
    ensures (r - x) % 0x1_0000_0000 == 0
    ensures INT_MIN <= x <= INT_MAX ==> r == x
  {
    (x - INT_MIN) % 0x1_0000_0000 + INT_MIN
  }

  // ---------------------------------------------------------------------------
  // Host values
  // ---------------------------------------------------------------------------

  /** A namespaced identifier, printed as `namespace:path`. */
  datatype Loc = Loc(namespace: string, path: string)

  function LocString(l: Loc): string {
    l.namespace + ":" + l.path
  }

  /** An item type; only its registry name is observed. */
  datatype Item = Item(registryName: Option<Loc>)

  /** The mod id the ring's registry name lives under. */
  const MOD_ID: string := "potionfingers"
  const ITEM_NAME: string := "ring"

  const AIR: Item := Item(Some(Loc("minecraft", "air")))
  const RING: Item := Item(Some(Loc(MOD_ID, ITEM_NAME)))

  /** The tag compound of a stack, restricted to the three keys the ring uses.
      An absent key is `None`. */
  datatype Tag = Tag(effect: Option<string>, durability: Option<int32>, maxDurability: Option<int32>)

  const NEW_TAG: Tag := Tag(None, None, None)

  /** Item metadata ("damage" in the host's vocabulary); the host keeps it
      non-negative. */
  type Meta = x: int | 0 <= x <= INT_MAX

  /** An item stack: item, count, metadata and an optional tag compound. */
  datatype Stack = Stack(item: Item, count: int, meta: Meta, tag: Option<Tag>)

  const EMPTY: Stack := Stack(AIR, 0, 0, None)

  predicate IsEmpty(s: Stack) {
    s.item == AIR || s.count <= 0
  }

  /** A status effect type. The whole value is the effect's identity: two
      values are the same effect exactly when they are equal. `kind` tells
      effects registered under the same name apart; `registryName` is the name
      the effect was registered under, if any. */
  datatype Potion = Potion(kind: nat, registryName: Option<Loc>)

  /** The potion registry, looked up by the identifier string kept in a
      ring's effect tag. */
  type PotionRegistry = map<string, Potion>

  /** `p` is registered under its own registry name. */
  predicate Registered(reg: PotionRegistry, p: Potion) {
    && p.registryName.Some?
    && LocString(p.registryName.value) in reg
    && reg[LocString(p.registryName.value)] == p
  }

  // ---------------------------------------------------------------------------
  // Tag readers
  // ---------------------------------------------------------------------------

  /** The string under the effect key; a missing tag or key reads as "". */
  function EffectId(s: Stack): string {
    if s.tag.Some? && s.tag.value.effect.Some? then s.tag.value.effect.value else ""
  }

  predicate HasDurabilityTag(s: Stack) {
    s.tag.Some? && s.tag.value.durability.Some?
  }

  /** The effect bound to a stack: none for an empty stack, a blank effect id
      or an id the registry does not know. */
  function GetPotion(reg: PotionRegistry, s: Stack): (r: Option<Potion>)
    ensures IsEmpty(s) ==> r == None
    ensures r.Some? <==> !IsEmpty(s) && EffectId(s) != "" && EffectId(s) in reg
    ensures r.Some? ==> r.value == reg[EffectId(s)]
  {
    if IsEmpty(s) then None
    else
      var id := EffectId(s);
      if id == "" then None
      else if id in reg then Some(reg[id])
      else None
  }

  const NO_DURABILITY: int32 := -1

  /** The remaining durability of a stack; -1 for an empty stack or one
      without a durability tag. */
  function GetDurability(s: Stack): (d: int32)
    ensures IsEmpty(s) || !HasDurabilityTag(s) ==> d == NO_DURABILITY
    ensures !IsEmpty(s) && HasDurabilityTag(s) ==> d == s.tag.value.durability.value
  {
    if IsEmpty(s) then NO_DURABILITY
    else if HasDurabilityTag(s) then s.tag.value.durability.value
    else NO_DURABILITY
  }

  // ---------------------------------------------------------------------------
  // Ring construction
  // ---------------------------------------------------------------------------

  /** A fresh ring bound to `p`: one ring of metadata 1 whose effect tag is
      `p`'s registry id; the empty stack when `p` has no registry name. */
  function RingForPotion(p: Potion): (s: Stack)
    ensures p.registryName.None? ==> s == EMPTY
    ensures p.registryName.Some? ==>
              && s.item == RING && s.count == 1 && s.meta == 1
              && EffectId(s) == LocString(p.registryName.value)
              && !HasDurabilityTag(s)
  {
    if p.registryName.None? then EMPTY
    else Stack(RING, 1, 1, Some(NEW_TAG.(effect := Some(LocString(p.registryName.value)))))
  }

  /** Reading the effect back from a ring built for a registered potion
      yields that potion; a ring built for an unnamed potion has none. */
  lemma RingPotionRoundTrip(reg: PotionRegistry, p: Potion)
    ensures Registered(reg, p) ==> GetPotion(reg, RingForPotion(p)) == Some(p)
    ensures p.registryName.None? ==> GetPotion(reg, RingForPotion(p)) == None
  {
    if p.registryName.Some? {
      var id := LocString(p.registryName.value);
      assert id[|p.registryName.value.namespace|] == ':';
      assert id != "";
    }
  }

  /** A fresh ring carries no durability counter. */
  lemma RingHasNoDurability(p: Potion)
    ensures GetDurability(RingForPotion(p)) == NO_DURABILITY
  {
  }

  // ---------------------------------------------------------------------------
  // Damage, derived from the durability tags
  // ---------------------------------------------------------------------------

  /** The ring never sets a maximum damage of its own, so the host default
      applies. */
  const ITEM_MAX_DAMAGE: int32 := 0

  /** The host's `hasTagCompound` test: an empty stack reports no tag, even
      when it still holds one. */
  predicate HasTag(s: Stack) {
    !IsEmpty(s) && s.tag.Some?
  }

  /** The maximum-durability tag, when present, overrides the item's own
      maximum damage. */
  function MaxDamage(s: Stack): (m: int32)
    ensures HasTag(s) && s.tag.value.maxDurability.Some? ==> m == s.tag.value.maxDurability.value
    ensures IsEmpty(s) || s.tag.None? || s.tag.value.maxDurability.None? ==> m == ITEM_MAX_DAMAGE
  {
    if HasTag(s) && s.tag.value.maxDurability.Some? then s.tag.value.maxDurability.value
    else ITEM_MAX_DAMAGE
  }

  /** Damage is the spent part of the maximum durability when a durability
      tag is present (Java `int` subtraction), the metadata otherwise. */
  function Damage(s: Stack): (d: int32)
    ensures !IsEmpty(s) && HasDurabilityTag(s) ==>
              (d + GetDurability(s) - MaxDamage(s)) % 0x1_0000_0000 == 0
    ensures IsEmpty(s) || !HasDurabilityTag(s) ==> d == s.meta
  {
    if HasTag(s) && HasDurabilityTag(s) then Wrap32(MaxDamage(s) - s.tag.value.durability.value)
    else s.meta
  }

  function IsDamaged(s: Stack): (b: bool)
    ensures !IsEmpty(s) && HasDurabilityTag(s) ==> (b <==> GetDurability(s) >= 0)
    ensures IsEmpty(s) || !HasDurabilityTag(s) ==> (b <==> s.meta > 0)
  {
    if HasTag(s) && HasDurabilityTag(s) then s.tag.value.durability.value >= 0
    else s.meta > 0
  }

  /** For a ring with a durability counter, damage and remaining durability add
      up to the maximum (modulo 2^32, exactly when the difference fits an
      `int`), and the ring counts as damaged exactly while the counter is
      non-negative. */
  lemma DamageComplementsDurability(s: Stack)
    requires !IsEmpty(s) && HasDurabilityTag(s)
    ensures (Damage(s) + GetDurability(s) - MaxDamage(s)) % 0x1_0000_0000 == 0
    ensures INT_MIN <= MaxDamage(s) - GetDurability(s) <= INT_MAX ==>
              Damage(s) == MaxDamage(s) - GetDurability(s)
    ensures IsDamaged(s) <==> GetDurability(s) >= 0
  {
  }

  /** Without a durability tag the host's own metadata-based damage applies;
      so it does for an empty stack, whatever tag it still holds (a ring that
      broke keeps its tag but reports none). */
  lemma DamageWithoutDurability(s: Stack)
    requires IsEmpty(s) || !HasDurabilityTag(s)
    ensures Damage(s) == s.meta
    ensures IsDamaged(s) <==> s.meta > 0
    ensures IsEmpty(s) ==> MaxDamage(s) == ITEM_MAX_DAMAGE
    ensures GetDurability(s) == NO_DURABILITY
  {
  }

  // ---------------------------------------------------------------------------
  // Translation key
  // ---------------------------------------------------------------------------

  const VARIANTS: seq<string> := ["ring_disabled", "ring_enabled"]

  /** The translation key picks the variant named by the metadata, falling
      back to the plain item name past the last variant. */
  function TranslationKey(s: Stack): (key: string)
    ensures |key| > |"item." + ".name"|
    ensures key[..5] == "item." && key[|key| - 5..] == ".name"
  {
    var name := if s.meta >= |VARIANTS| then ITEM_NAME else VARIANTS[s.meta];
    "item." + name + ".name"
  }

  /** Metadata 0 and 1 select distinct variant keys and every larger value the
      fallback key; a ring built for a named potion shows the enabled
      variant. */
  lemma TranslationKeyVariants(s: Stack, p: Potion)
    ensures s.meta == 0 ==> TranslationKey(s) == "item.ring_disabled.name"
    ensures s.meta == 1 ==> TranslationKey(s) == "item.ring_enabled.name"
    ensures s.meta >= 2 ==> TranslationKey(s) == "item.ring.name"
    ensures p.registryName.Some? ==> TranslationKey(RingForPotion(p)) == "item.ring_enabled.name"
  {
    VariantKey(s);
    if p.registryName.Some? {
      VariantKey(RingForPotion(p));
    }
  }

  /** The three metadata cases of `TranslationKey`, settled one at a time. */
  lemma VariantKey(s: Stack)
    ensures s.meta == 0 ==> TranslationKey(s) == "item.ring_disabled.name"
    ensures s.meta == 1 ==> TranslationKey(s) == "item.ring_enabled.name"
    ensures s.meta >= 2 ==> TranslationKey(s) == "item.ring.name"
  {
    if s.meta == 0 {
      assert VARIANTS[0] == "ring_disabled";
      assert "item." + "ring_disabled" + ".name" == "item.ring_disabled.name";
    } else if s.meta == 1 {
      assert VARIANTS[1] == "ring_enabled";
      assert "item." + "ring_enabled" + ".name" == "item.ring_enabled.name";
    } else {
      assert "item." + "ring" + ".name" == "item.ring.name";
    }
  }
}

=== FILE: wrappers.dfy ===
/** Failure-compatible wrappers used throughout the model: an optional value
    (Java's nullable reference) and a result that carries either a value or the
    error a Java method would have thrown. */
module Wrappers {

  datatype Option<+T> = None | Some(value: T)

  datatype Result<+T, +E> = Ok(value: T) | Err(error: E) {

    predicate IsFailure() {
      Err?
    }

    function PropagateFailure<U>(): Result<U, E>
      requires Err?
    {
      Err(error)
    }

    function Extract(): T
      requires Ok?
    {
      value
    }
  }
}
